=== FILE: README.md ===
# Criollo Sabor Digital: screen logic as pure functions

A model of the decision logic in three screens of a restaurant ordering app:
the menu (search, category and dietary filters, "add to cart"), the cart
(quantity buttons, trash button, "send order to kitchen") and the payment
screen (split-bill toggle, people-count input, amount shown, "pay").

Each handler is a pure function from what it reads to the sequence of
effects it issues, in order:

- `Add(product)`, `Remove(id)`, `Update(id, quantity)`, `Clear` are calls into
  the cart store. The store is kept abstract: an effect records the call and
  its arguments, never what the store does with it.
- `Toast(variant, title)` is a notice: `Default` or `Destructive`, with its title.
- `Navigate(path)` is a route change.

The modules:

- `Effects` (effects.dfy) holds the effect type and the trace predicates
  shared by the screens.
- `Text` (text.dfy) holds `includes` as substring existence, its scanning
  algorithm, and `toLowerCase` as a caller-supplied per-character map.
- `Menu` (menu.dfy) holds the dish record, the filter predicate, the filtered
  listing and `handleAddToCart`.
- `CartScreen` (cart.dfy) holds `handleQuantityChange`, the -/+/trash wiring
  and `handlePlaceOrder`.
- `Numbers` (parse_int.dfy) holds JavaScript's `parseInt` with no radix, as
  defined in ECMAScript 2024, section 19.2.5. The people-count field goes
  through it.
- `PaymentScreen` (payment.dfy) holds the screen state, `splitAmount`,
  `handleSplitToggle`, the people-count input and `handlePayment`.
- `Session` (session.dfy) drives the six effect-issuing handlers (add to
  cart, minus, plus, trash, place order, pay) with an arbitrary run of
  gestures. It proves that, for integer quantities, the store never receives a quantity below one. It
  also proves that `Clear` always sits between a success notice and
  `Navigate("/orders")`.

The cart store's own policies (merging on `addItem`, what `updateQuantity`
does with values below one) are outside this model. The cart screen itself
never passes a quantity below one to `updateQuantity`, for integer quantities:
`CartScreen.QuantityChange` and `Session.RunKeepsRules` prove it.

## Model

| member | source | states |
|---|---|---|
| Text.IncludesScan | src/pages/Menu.tsx:110-111 | The scan answers true exactly when the term occurs at some position of the text. |
| Text.LowerCase | src/pages/Menu.tsx:110-111 | `toLowerCase` as a per-character map: the result has the input's length and holds the mapped character at every position. |
| Text.IncludesEmpty | src/pages/Menu.tsx:110-111 | An empty search term is found in every name. |
| Text.IncludesParts | src/pages/Menu.tsx:110-111 | A text that contains `a + b` contains both `a` and `b`. |
| Text.IncludesLowerCase | src/pages/Menu.tsx:110-111 | An exact-case hit stays a hit after both sides are lower-cased. |
| Text.LowerCaseIdempotent | src/pages/Menu.tsx:110-111 | With an idempotent case map, lower-casing twice equals lower-casing once. |
| Menu.MatchesSearch | src/pages/Menu.tsx:110-111 | The search test: the lower-cased name or the lower-cased description contains the lower-cased search term. |
| Menu.MatchesCategory | src/pages/Menu.tsx:112 | The category test: the selected category is "todos" or equals the dish's category. |
| Menu.MatchesFilter | src/pages/Menu.tsx:113 | The dietary test: the selected filter is "todos" or is one of the dish's dietary tags (list membership, not substring). |
| Menu.Kept | src/pages/Menu.tsx:109-116 | The filter callback: a dish is kept iff all three tests hold. |
| Menu.FilteredItems | src/pages/Menu.tsx:109-116 | Every listed dish comes from the catalog and passes all three tests. With a category other than "todos" every listed dish has that category. With a filter other than "todos" every listed dish carries that dietary tag. |
| Menu.FilterIsSubsequence | src/pages/Menu.tsx:109-116 | The listing is an order-preserving subsequence of the catalog: nothing is added or reordered. |
| Menu.FilterCounts | src/pages/Menu.tsx:109-116 | A dish appears in the listing as often as in the catalog when it passes the tests, and not at all otherwise. |
| Menu.FilterMembership | src/pages/Menu.tsx:110-115 | A dish is listed iff it is in the catalog and the search, category and dietary tests all hold. |
| Menu.InitialStateKeepsAll | src/pages/Menu.tsx:14-16 | In the initial state every catalog dish is listed, in order: empty search, category "todos", filter "todos". |
| Menu.NameHitPassesSearch | src/pages/Menu.tsx:110-111 | A dish whose lower-cased name contains the lower-cased term passes the search test whatever its description. |
| Menu.FilterIdempotent | src/pages/Menu.tsx:109-116 | Filtering the listing again with the same state changes nothing. |
| Menu.LongerSearchNarrows | src/pages/Menu.tsx:110-111 | Extending the search term yields a subsequence of the previous listing. |
| Menu.SearchIgnoresCase | src/pages/Menu.tsx:110-111 | With an idempotent case map, searching for a term or its lower-cased form lists the same dishes. |
| Menu.AddToCart | src/pages/Menu.tsx:126-138 | One store call, an `addItem` of exactly the dish's id, name, price and image, then one non-destructive toast. |
| Menu.AddToCartForwardsExactly | src/pages/Menu.tsx:127-132 | Two dishes give the same effects iff they agree on id, name, price and image. No other field reaches the store. |
| Menu.AddClicksAddOncePerClick | src/pages/Menu.tsx:126-138 | A run of clicks adds one product per click, in click order, each the clicked dish's four fields. The store sees nothing else. |
| CartScreen.QuantityChange | src/pages/Cart.tsx:28-38 | Exactly one store call, on the given id. It is a `Remove` iff the quantity is ≤ 0 and an `Update` iff it is ≥ 1; an update carries exactly the given quantity, so none is below one. A toast is issued iff the quantity is ≤ 0, and it is the non-destructive "Producto eliminado" notice. |
| CartScreen.NonPositiveQuantityRemoves | src/pages/Cart.tsx:28-34 | A quantity ≤ 0 gives exactly `Remove(id)` then an informational toast. |
| CartScreen.PositiveQuantityUpdates | src/pages/Cart.tsx:35-37 | A quantity ≥ 1 gives exactly `Update(id, q)`, with no removal and no toast. |
| CartScreen.MinusClicked | src/pages/Cart.tsx:142 | The minus button never updates to a quantity below one, and any update it issues is to the line's quantity minus one. |
| CartScreen.PlusClicked | src/pages/Cart.tsx:155 | The plus button never updates to a quantity below one, and any update it issues is to the line's quantity plus one. |
| CartScreen.TrashClicked | src/pages/Cart.tsx:165 | The trash button issues one store call, `Remove(id)`, and no toast. |
| CartScreen.MinusOnLastUnitRemoves | src/pages/Cart.tsx:142 | Minus on a line of quantity 1 removes the line, with the removal notice. |
| CartScreen.MinusAboveOneDecrements | src/pages/Cart.tsx:142 | Minus on a line of quantity ≥ 2 is exactly `Update(id, q - 1)`. |
| CartScreen.PlusIncrements | src/pages/Cart.tsx:155 | Plus is exactly `Update(id, q + 1)` for every quantity q ≥ 0. |
| CartScreen.MinusOnLastUnitIsTrashWithNotice | src/pages/Cart.tsx:139-169 | On a one-unit line, minus and trash make the same store call. Minus adds the removal notice. |
| CartScreen.PlaceOrder | src/pages/Cart.tsx:40-68 | `Clear` and `Navigate("/orders")` are issued iff the cart is non-empty and the table number is non-empty. An empty cart gives only the "Carrito vacío" destructive toast. A non-empty cart with no table number gives only the "Número de mesa requerido" destructive toast. Otherwise the effects are success toast, `Clear`, `Navigate("/orders")`. |
| CartScreen.EmptyCartIgnoresTable | src/pages/Cart.tsx:41-48 | With an empty cart the result does not depend on the table number: the first guard runs first. |
| CartScreen.PlaceOrderIgnoresLines | src/pages/Cart.tsx:40-57 | The handler reads only whether the cart is empty, never which lines it holds. |
| CartScreen.AnyTableNumberPasses | src/pages/Cart.tsx:50-57 | Any non-empty table number string passes the second guard, "0" included. |
| Numbers.Magnitude | src/pages/Payment.tsx:151 | What follows the sign: it is NaN when empty or not starting with a decimal digit, a number when it is one digit or starts with two, and never negative. |
| Numbers.ParseInt | src/pages/Payment.tsx:151 | Empty input is NaN. Input starting with a character that is not white space, a sign or a digit is NaN. Input that is one digit, or starts with two digits, is a non-negative number. |
| Numbers.ParseIntReadsRendered | src/pages/Payment.tsx:151 | A rendered integer followed by a non-digit reads back as that integer, e.g. "2.5" reads as 2. The one exception is "0" followed by "x"/"X". |
| Numbers.ParseIntRoundTrip | src/pages/Payment.tsx:151 | Every rendered integer reads back as itself. |
| Numbers.ParseIntSkipsWhiteSpace | src/pages/Payment.tsx:151 | Leading white space never changes the result. |
| Numbers.ParseIntSigns | src/pages/Payment.tsx:151 | For any text after the sign, "+" gives the magnitude unchanged and "-" negates it; NaN stays NaN. So "+5" reads as 5. |
| Numbers.ParseIntDecimal | src/pages/Payment.tsx:151 | A run of decimal digits followed by a non-digit reads in radix 10, leading zeros included ("007" reads as 7). A lone "0" before "x"/"X" is excluded as a hex prefix. |
| Numbers.ParseIntHex | src/pages/Payment.tsx:151 | After "0x" or "0X", the longest run of hex digits is read in radix 16; with no digits the result is NaN. |
| PaymentScreen.InitialStateAmounts | src/pages/Payment.tsx:18-20 | The initial state (card, split off, 1 person) shows the whole total. Its first toggle gives split on with 2 people. |
| PaymentScreen.SplitAmount | src/pages/Payment.tsx:29 | The amount carries the cart total. It is the whole total iff split billing is off. |
| PaymentScreen.NonSplitAmountIsTotal | src/pages/Payment.tsx:29 | With split billing off the amount is the total, whatever `numberOfPeople` is. |
| PaymentScreen.SplitToggle | src/pages/Payment.tsx:60-65 | The flag flips and the payment method is kept. Turning split on sets 2 people. Turning it off keeps the people count. |
| PaymentScreen.ToggleTwice | src/pages/Payment.tsx:60-65 | Two toggles restore the flag but always leave 2 people. |
| PaymentScreen.ToggledOffAmountIsTotal | src/pages/Payment.tsx:60-65 | After toggling split off, the amount is the whole total again. |
| PaymentScreen.PeopleInput | src/pages/Payment.tsx:151 | The stored count is never 0. NaN and 0 (e.g. "00", "-0", "0e1") give 2. A non-zero parsed integer is stored as it is, negatives included. |
| PaymentScreen.PeopleChanged | src/pages/Payment.tsx:146-151 | Editing the field stores `parseInt(value) \|\| 2` as the people count, never 0, and changes nothing else. |
| PaymentScreen.PeopleInputReadsRendered | src/pages/Payment.tsx:151 | Typing a rendered integer stores that integer, except that 0 becomes 2. |
| PaymentScreen.PeopleInputNonNumeric | src/pages/Payment.tsx:151 | An empty field, or one whose first character is not white space, a sign or a digit, gives 2. |
| PaymentScreen.PeopleInputFraction | src/pages/Payment.tsx:151 | A rendered integer followed by "." and any fraction stores the integer part, e.g. "2.5" gives 2; "0.5" gives 2 through the fallback. |
| PaymentScreen.PeopleInputLeadingSpace | src/pages/Payment.tsx:151 | A leading white-space character does not change the stored count, e.g. " 5" stores what "5" stores. |
| PaymentScreen.PeopleInputDecimal | src/pages/Payment.tsx:151 | A field of decimal digits stores their value, leading zeros included ("007" stores 7); a value of 0 ("00") gives 2. |
| PaymentScreen.PeopleInputHex | src/pages/Payment.tsx:151 | "0x" or "0X" followed by hex digits stores their radix-16 value when it is positive, e.g. "0x1A" gives 26; a bare "0x", or digits of value 0 such as "0x00", give 2. |
| PaymentScreen.Pay | src/pages/Payment.tsx:39-58 | `Clear` and `Navigate("/orders")` are issued iff the cart is non-empty. An empty cart gives only a destructive toast. Otherwise the effects are success toast, `Clear`, `Navigate("/orders")`. |
| PaymentScreen.PayMatchesPlaceOrder | src/pages/Payment.tsx:39-58 | Given a table number, paying and placing an order make the same store and routing calls and differ only in the notice. |
| Session.Dispatch | src/pages/Cart.tsx:139-222 | Each gesture reaches its handler: minus, plus and trash on a cart line and the order button (Cart.tsx:142, 155, 165, 222), and likewise "Agregar al Carrito" (Menu.tsx:244) and "Pagar" (Payment.tsx:249). |
| Session.DispatchKeepsRules | src/pages/Cart.tsx:28-68 | Each handler never updates below one and keeps `Clear` between a success toast and `Navigate("/orders")`; this covers the cart handlers here and also `handleAddToCart` (Menu.tsx:126-138) and `handlePayment` (Payment.tsx:39-58). |
| Session.RunKeepsRules | src/pages/Cart.tsx:28-68 | Any run of gestures on the three screens keeps both rules: the cart handlers here, `handleAddToCart` (Menu.tsx:126-138) and `handlePayment` (Payment.tsx:39-58). |
| Session.NonCheckoutGesture | src/pages/Menu.tsx:126-138 | Adding to the cart and the minus, plus and trash buttons never clear the cart and never navigate. |
| Session.NoCheckoutNoClear | src/pages/Cart.tsx:59-67 | No modelled gesture other than placing an order or paying clears the cart or navigates, so a run without those two never does. |

## Left out

- The cart store's own behaviour is not part of this model: `addItem` merging, `updateQuantity`, `removeItem`, `clearCart`, `getTotal` and `getItemCount`. Its source is not available, so store calls are recorded as effects and their results are not modelled.
- CartScreen.QuantityChange: quantities are modelled as integers, on the assumption that the store holds whole numbers. JavaScript passes any `number`: a quantity strictly between 0 and 1 (minus on a line of 1.5 sends 0.5) or NaN (`NaN <= 0` is false) would reach `updateQuantity`, so "never below one" holds only for integer quantities.
- PaymentScreen.SplitAmount: the split branch `total / numberOfPeople` is JavaScript floating-point division. It is kept as the symbolic `PerPerson(total, people)` and never evaluated.
- Numbers.ParseInt: results are unbounded integers, so the rounding JavaScript applies beyond 2^53 is not modelled. `-0` reads as `0`; both are falsy, so the people-count fallback is the same.
- Menu.MatchesSearch: `toLowerCase` is a caller-supplied per-character map. Full Unicode case mapping, including the one-to-many mappings, is not modelled.
- Browser input handling is not modelled. The table-number and people-count fields are `<input type="number">` (Cart.tsx:108, Payment.tsx:147), so the browser hands `onChange` only "" or a valid decimal number string. Inputs such as a blank, " 5", "+5" or "0x1A" are covered by the lemmas because `parseInt` and `!tableNumber` define what happens to them, not because the page can deliver them.
- The six hard-coded catalog dishes are data, not modelled as constants. Every listing property above is proved for an arbitrary catalog, so it holds for those six as well.
- `formatPrice` (locale formatting with `Intl.NumberFormat`) is not modelled; it is presentation only.
- Toast descriptions are not modelled. These include the texts that interpolate the dish name, the table number and the paid amount. Only the variant and title are kept.
- Form state that no handler reads is not modelled. This covers card data, the payment-method radio (beyond its initial value) and special instructions.
- The category buttons' hard-coded counts are not modelled; they are display text. For example "Entradas (6)" appears while the catalog has three starters.
- The empty-cart branches of the cart and payment screens render no order/pay button, so those guards are not reachable from the rendered page. The model keeps them because the handlers contain them.
- Routing-only buttons are not modelled ("Ver Menú", "Proceder al Pago", "Seguir Agregando Platos", "Volver al Carrito").
- The orders, profile and home screens and the navigation bar and header are not modelled. They hold static data, toast-only handlers, a clock timer and routing. The navigation bar's cart badge never shows, because no navigation item has the path `/cart`.

=== FILE: cart.dfy ===
/**
 * The cart screen's handlers: the quantity change behind the -/+ buttons,
 * the trash button, and "Enviar Pedido a Cocina" (place order).
 *
 * The cart's lines are the store's snapshot; the handlers only read a line's
 * id and quantity and whether there are any lines at all.
 */
module CartScreen {
  import opened Effects

  /** One line of the store's snapshot, as the screen renders it. */
  datatype CartLine = CartLine(id: string, name: string, price: int, image: string, quantity: int)

  const RemovedTitle: string := "Producto eliminado"
  const EmptyCartTitle: string := "Carrito vacío"
  const TableRequiredTitle: string := "Número de mesa requerido"
  const OrderSentTitle: string := "¡Pedido enviado! 🎉"

  /**
   * `handleQuantityChange`: a non-positive quantity removes the line (with a
   * notice); a positive one is passed to `updateQuantity`.
   */
  function QuantityChange(id: string, newQuantity: int): (r: seq<Effect>)
    ensures |StoreCalls(r)| == 1 && (StoreCalls(r)[0].Remove? || StoreCalls(r)[0].Update?)
    ensures StoreCalls(r)[0].id == id
    ensures Remove(id) in r <==> newQuantity <= 0
    ensures (exists i :: 0 <= i < |r| && r[i].Update?) <==> newQuantity >= 1
    ensures StoreCalls(r)[0].Update? ==> StoreCalls(r)[0].quantity == newQuantity
    ensures (exists i :: 0 <= i < |r| && r[i].Toast?) <==> newQuantity <= 0
    ensures forall i :: 0 <= i < |r| && r[i].Toast? ==> r[i] == Toast(Default, RemovedTitle)
    ensures PositiveUpdates(r)
    ensures forall i :: 0 <= i < |r| ==> !r[i].Clear? && !r[i].Navigate? && !r[i].Add?
  {
    if newQuantity <= 0 then
      [Remove(id), Toast(Default, RemovedTitle)]
    else
      [Update(id, newQuantity)]
  }

  /** A non-positive quantity: exactly a removal, then an informational notice. */
  lemma NonPositiveQuantityRemoves(id: string, newQuantity: int)
    requires newQuantity <= 0
    ensures QuantityChange(id, newQuantity) == [Remove(id), Toast(Default, RemovedTitle)]
  {
  }

  /** A positive quantity: exactly one update carrying that quantity, no notice. */
  lemma PositiveQuantityUpdates(id: string, newQuantity: int)
    requires newQuantity >= 1
    ensures QuantityChange(id, newQuantity) == [Update(id, newQuantity)]
  {
  }

  /** The minus button of a line. */
  function MinusClicked(line: CartLine): (r: seq<Effect>)
    ensures PositiveUpdates(r)
    ensures forall i :: 0 <= i < |r| && r[i].Update? ==> r[i] == Update(line.id, line.quantity - 1)
  {
    QuantityChange(line.id, line.quantity - 1)
  }

  /** The plus button of a line. */
  function PlusClicked(line: CartLine): (r: seq<Effect>)
    ensures PositiveUpdates(r)
    ensures forall i :: 0 <= i < |r| && r[i].Update? ==> r[i] == Update(line.id, line.quantity + 1)
  {
    QuantityChange(line.id, line.quantity + 1)
  }

  /** The trash button of a line: a direct `removeItem`, with no notice. */
  function TrashClicked(line: CartLine): (r: seq<Effect>)
    ensures StoreCalls(r) == r && |r| == 1
    ensures Remove(line.id) in r
  {
    [Remove(line.id)]
  }

  /** Minus on a line holding a single unit removes it (with the notice). */
  lemma MinusOnLastUnitRemoves(line: CartLine)
    requires line.quantity <= 1
    ensures MinusClicked(line) == [Remove(line.id), Toast(Default, RemovedTitle)]
  {
  }

  /** Minus on a line holding two or more units lowers the quantity by one. */
  lemma MinusAboveOneDecrements(line: CartLine)
    requires line.quantity >= 2
    ensures MinusClicked(line) == [Update(line.id, line.quantity - 1)]
  {
  }

  /** Plus always raises the quantity by one (for every quantity of zero or more). */
  lemma PlusIncrements(line: CartLine)
    requires line.quantity >= 0
    ensures PlusClicked(line) == [Update(line.id, line.quantity + 1)]
  {
  }

  /**
   * On a one-unit line, minus and trash make the same store call; minus adds
   * the removal notice, trash does not.
   */
  lemma MinusOnLastUnitIsTrashWithNotice(line: CartLine)
    requires line.quantity == 1
    ensures StoreCalls(MinusClicked(line)) == StoreCalls(TrashClicked(line))
    ensures MinusClicked(line) == TrashClicked(line) + [Toast(Default, RemovedTitle)]
  {
    assert StoreCalls([Toast(Default, RemovedTitle)]) == [];
    StoreCallsAppend([Remove(line.id)], [Toast(Default, RemovedTitle)]);
  }

  /**
   * `handlePlaceOrder`: refuse an empty cart, then refuse a missing table
   * number; otherwise announce the order, clear the cart and go to the
   * orders screen.  A table number is missing only when it is the empty
   * string (the only falsy string).
   */
  function PlaceOrder(items: seq<CartLine>, tableNumber: string): (r: seq<Effect>)
    ensures Clear in r <==> |items| > 0 && tableNumber != ""
    ensures Navigate(OrdersPath) in r <==> Clear in r
    ensures OnlyToasts(r) <==> !(Clear in r)
    ensures |items| == 0 ==> r == [Toast(Destructive, EmptyCartTitle)]
    ensures |items| > 0 && tableNumber == "" ==> r == [Toast(Destructive, TableRequiredTitle)]
    ensures Clear in r ==> r == [Toast(Default, OrderSentTitle), Clear, Navigate(OrdersPath)]
    ensures CheckoutShaped(r)
  {
    if |items| == 0 then
      [Toast(Destructive, EmptyCartTitle)]
    else if tableNumber == "" then
      [Toast(Destructive, TableRequiredTitle)]
    else
      [Toast(Default, OrderSentTitle), Clear, Navigate(OrdersPath)]
  }

  /** The empty-cart guard runs first: the table number is never consulted. */
  lemma EmptyCartIgnoresTable(t1: string, t2: string)
    ensures PlaceOrder([], t1) == PlaceOrder([], t2)
  {
  }

  /** The handler reads only whether the cart is empty, never which lines it holds. */
  lemma PlaceOrderIgnoresLines(a: seq<CartLine>, b: seq<CartLine>, tableNumber: string)
    requires (|a| == 0) == (|b| == 0)
    ensures PlaceOrder(a, tableNumber) == PlaceOrder(b, tableNumber)
  {
  }

  /** Any non-empty table number passes the second guard, even "0". */
  lemma AnyTableNumberPasses(items: seq<CartLine>, tableNumber: string)
    requires |items| > 0 && |tableNumber| > 0
    ensures PlaceOrder(items, tableNumber)[1] == Clear
  {
  }
}

=== FILE: effects.dfy ===
/**
 * The effects that the menu, cart and payment screens ask of their
 * collaborators.  Each screen handler is modelled as a pure function from its
 * inputs to the sequence of effects it issues, in issue order.
 *
 * The cart store (addItem, removeItem, updateQuantity, clearCart) is kept
 * abstract: an effect records that the operation was called and with which
 * arguments, never what the store then does.  Toasts record their variant and
 * title; routing records the target path.
 */
module Effects {

  /** The `variant` of a toast: absent (the default style) or "destructive". */
  datatype Variant = Default | Destructive

  /** The record the menu hands to the cart store's `addItem`. */
  datatype CartProduct = CartProduct(id: string, name: string, price: int, image: string)

  datatype Effect =
    | Add(product: CartProduct)
    | Remove(id: string)
    | Update(id: string, quantity: int)
    | Clear
    | Toast(variant: Variant, title: string)
    | Navigate(path: string)

  /** The route both checkout handlers send the user to on success. */
  const OrdersPath: string := "/orders"

  /** A call into the cart store (as opposed to a toast or a route change). */
  predicate IsStoreCall(e: Effect) {
    e.Add? || e.Remove? || e.Update? || e.Clear?
  }

  /** Nothing in `es` changes the cart or the route: only toasts. */
  predicate OnlyToasts(es: seq<Effect>) {
    forall i :: 0 <= i < |es| ==> es[i].Toast?
  }

  /** The store is never asked to set a quantity below one. */
  predicate PositiveUpdates(es: seq<Effect>) {
    forall i :: 0 <= i < |es| && es[i].Update? ==> es[i].quantity >= 1
  }

  /**
   * Checkout discipline: every `Clear` comes straight after a success
   * (non-destructive) toast and straight before `Navigate(OrdersPath)`, and
   * every navigation comes straight after a `Clear`.
   */
  predicate CheckoutShaped(es: seq<Effect>) {
    && (forall i :: 0 <= i < |es| && es[i].Clear? ==>
          0 < i && es[i - 1].Toast? && es[i - 1].variant == Default
          && i + 1 < |es| && es[i + 1] == Navigate(OrdersPath))
    && (forall i :: 0 <= i < |es| && es[i].Navigate? ==> 0 < i && es[i - 1].Clear?)
  }

  /** The store calls in `es`, in order. */
  function StoreCalls(es: seq<Effect>): (r: seq<Effect>)
    ensures |r| <= |es|
    ensures forall i :: 0 <= i < |r| ==> IsStoreCall(r[i]) && r[i] in es
    ensures forall e :: e in es && IsStoreCall(e) ==> e in r
  {
    if |es| == 0 then []
    else if IsStoreCall(es[0]) then [es[0]] + StoreCalls(es[1..])
    else StoreCalls(es[1..])
  }

  /** The products handed to `addItem` in `es`, in order. */
  function Added(es: seq<Effect>): (r: seq<CartProduct>)
    ensures |r| <= |es|
    ensures forall p :: p in r <==> Add(p) in es
  {
    if |es| == 0 then []
    else if es[0].Add? then [es[0].product] + Added(es[1..])
    else Added(es[1..])
  }

  lemma {:induction false} StoreCallsAppend(a: seq<Effect>, b: seq<Effect>)
    ensures StoreCalls(a + b) == StoreCalls(a) + StoreCalls(b)
  {
    if |a| == 0 {
      assert a + b == b;
    } else {
      assert (a + b)[1..] == a[1..] + b;
      StoreCallsAppend(a[1..], b);
    }
  }

  lemma {:induction false} AddedAppend(a: seq<Effect>, b: seq<Effect>)
    ensures Added(a + b) == Added(a) + Added(b)
  {
    if |a| == 0 {
      assert a + b == b;
    } else {
      assert (a + b)[1..] == a[1..] + b;
      AddedAppend(a[1..], b);
    }
  }

  /** Concatenating two checkout-shaped traces gives a checkout-shaped trace. */
  lemma CheckoutShapedAppend(a: seq<Effect>, b: seq<Effect>)
    requires CheckoutShaped(a) && CheckoutShaped(b)
    ensures CheckoutShaped(a + b)
  {
    var ab := a + b;
    forall i | 0 <= i < |ab| && ab[i].Clear?
      ensures 0 < i && ab[i - 1].Toast? && ab[i - 1].variant == Default
      ensures i + 1 < |ab| && ab[i + 1] == Navigate(OrdersPath)
    {
      if i < |a| {
        assert a[i].Clear?;
      } else {
        assert b[i - |a|].Clear?;
      }
    }
    forall i | 0 <= i < |ab| && ab[i].Navigate?
      ensures 0 < i && ab[i - 1].Clear?
    {
      if i < |a| {
        assert a[i].Navigate?;
      } else {
        assert b[i - |a|].Navigate?;
      }
    }
  }
}

=== FILE: menu.dfy ===
/**
 * The menu screen: the dish record, the filter state (search term, category,
 * dietary filter), the rule deciding which dishes are listed, and the
 * "add to cart" button.
 */
module Menu {
  import opened Text
  import opened Effects

  /** A catalog entry, with every field the catalog records. */
  datatype MenuItem = MenuItem(
    id: string,
    name: string,
    description: string,
    price: int,
    image: string,
    category: string,
    rating: real,
    prepTime: string,
    ingredients: seq<string>,
    dietary: seq<string>)

  /** The three pieces of screen state the listing depends on. */
  datatype MenuState = MenuState(searchTerm: string, selectedCategory: string, selectedFilter: string)

  /** The category and filter id that selects everything. */
  const All: string := "todos"

  /** The screen's state when it is first shown. */
  const InitialState: MenuState := MenuState("", All, All)

  /** Lower-cased name or lower-cased description contains the lower-cased term. */
  predicate MatchesSearch(lower: char -> char, item: MenuItem, term: string) {
    var t := LowerCase(lower, term);
    Includes(LowerCase(lower, item.name), t) || Includes(LowerCase(lower, item.description), t)
  }

  predicate MatchesCategory(item: MenuItem, category: string) {
    category == All || item.category == category
  }

  /** Dietary tags are a list, so this is list membership, not substring search. */
  predicate MatchesFilter(item: MenuItem, filter: string) {
    filter == All || filter in item.dietary
  }

  /** The predicate handed to `menuItems.filter`. */
  predicate Kept(lower: char -> char, item: MenuItem, st: MenuState) {
    && MatchesSearch(lower, item, st.searchTerm)
    && MatchesCategory(item, st.selectedCategory)
    && MatchesFilter(item, st.selectedFilter)
  }

  /** `filteredItems`: the catalog run through `Kept`, front to back. */
  function FilteredItems(lower: char -> char, items: seq<MenuItem>, st: MenuState): (r: seq<MenuItem>)
    ensures |r| <= |items|
    ensures forall i :: 0 <= i < |r| ==> r[i] in items && Kept(lower, r[i], st)
    ensures st.selectedCategory != All ==>
              forall i :: 0 <= i < |r| ==> r[i].category == st.selectedCategory
    ensures st.selectedFilter != All ==>
              forall i :: 0 <= i < |r| ==> st.selectedFilter in r[i].dietary
  {
    if |items| == 0 then []
    else
      var rest := FilteredItems(lower, items[1..], st);
      if Kept(lower, items[0], st) then [items[0]] + rest else rest
  }

  /** `a` can be obtained from `b` by deleting elements (order is kept). */
  predicate IsSubsequence<T(==)>(a: seq<T>, b: seq<T>)
    decreases |b|
  {
    if |a| == 0 then true
    else if |b| == 0 then false
    else if a[0] == b[0] then IsSubsequence(a[1..], b[1..])
    else IsSubsequence(a, b[1..])
  }

  /** The listing only deletes dishes from the catalog; it never adds or reorders. */
  lemma {:induction false} FilterIsSubsequence(lower: char -> char, items: seq<MenuItem>, st: MenuState)
    ensures IsSubsequence(FilteredItems(lower, items, st), items)
  {
    if |items| > 0 {
      FilterIsSubsequence(lower, items[1..], st);
      var rest := FilteredItems(lower, items[1..], st);
      if !Kept(lower, items[0], st) {
        SubsequenceDropHead(rest, items);
      }
    }
  }

  /** If `a` is a subsequence of `b[1..]` it is a subsequence of `b`. */
  lemma {:induction false} SubsequenceDropHead<T>(a: seq<T>, b: seq<T>)
    requires |b| > 0 && IsSubsequence(a, b[1..])
    ensures IsSubsequence(a, b)
    decreases |a| + |b|
  {
    if |a| > 0 && a[0] == b[0] {
      SubsequenceTail(a, b[1..]);
    }
  }

  /** Deleting the head of a subsequence keeps it a subsequence. */
  lemma {:induction false} SubsequenceTail<T>(a: seq<T>, b: seq<T>)
    requires |a| > 0 && IsSubsequence(a, b)
    ensures IsSubsequence(a[1..], b)
    decreases |a| + |b|
  {
    if a[0] == b[0] {
      SubsequenceDropHead(a[1..], b);
    } else {
      SubsequenceTail(a, b[1..]);
      SubsequenceDropHead(a[1..], b);
    }
  }

  /**
   * Every copy of a kept dish survives and no copy of a dropped dish does:
   * the listing holds each dish exactly as often as the catalog does when
   * `Kept` accepts it, and never otherwise.
   */
  lemma {:induction false} FilterCounts(lower: char -> char, items: seq<MenuItem>, st: MenuState, x: MenuItem)
    ensures multiset(FilteredItems(lower, items, st))[x]
            == if Kept(lower, x, st) then multiset(items)[x] else 0
  {
    if |items| > 0 {
      var head := items[0];
      var r := FilteredItems(lower, items, st);
      var rest := FilteredItems(lower, items[1..], st);
      FilterCounts(lower, items[1..], st, x);
      assert items == [head] + items[1..];
      CountCons(head, items[1..], x);
      if Kept(lower, head, st) {
        assert r == [head] + rest;
        CountCons(head, rest, x);
      } else {
        assert r == rest;
      }
    }
  }

  /** The multiplicity of `x` after putting `h` in front of `s`. */
  lemma CountCons<T>(h: T, s: seq<T>, x: T)
    ensures multiset([h] + s)[x] == (if x == h then 1 else 0) + multiset(s)[x]
  {
    assert multiset([h] + s) == multiset([h]) + multiset(s);
  }

  /** A dish is listed iff it is in the catalog and all three tests pass. */
  lemma FilterMembership(lower: char -> char, items: seq<MenuItem>, st: MenuState, x: MenuItem)
    ensures x in FilteredItems(lower, items, st) <==> x in items && Kept(lower, x, st)
  {
    FilterCounts(lower, items, st, x);
    assert x in FilteredItems(lower, items, st) <==> multiset(FilteredItems(lower, items, st))[x] > 0;
  }

  /** With an empty search and both selectors on "todos", the whole catalog is listed. */
  lemma {:induction false} InitialStateKeepsAll(lower: char -> char, items: seq<MenuItem>)
    ensures FilteredItems(lower, items, InitialState) == items
  {
    if |items| > 0 {
      assert LowerCase(lower, "") == "";
      IncludesEmpty(LowerCase(lower, items[0].name));
      InitialStateKeepsAll(lower, items[1..]);
      assert items == [items[0]] + items[1..];
    }
  }

  /** A dish whose lower-cased name contains the lower-cased term passes the search test, whatever its description. */
  lemma NameHitPassesSearch(lower: char -> char, item: MenuItem, term: string)
    requires Includes(LowerCase(lower, item.name), LowerCase(lower, term))
    ensures forall d :: MatchesSearch(lower, item.(description := d), term)
  {
  }

  /** Filtering an already-filtered listing again changes nothing. */
  lemma {:induction false} FilterIdempotent(lower: char -> char, items: seq<MenuItem>, st: MenuState)
    ensures FilteredItems(lower, FilteredItems(lower, items, st), st) == FilteredItems(lower, items, st)
  {
    if |items| > 0 {
      FilterIdempotent(lower, items[1..], st);
      var rest := FilteredItems(lower, items[1..], st);
      if Kept(lower, items[0], st) {
        assert ([items[0]] + rest)[1..] == rest;
      }
    }
  }

  /**
   * Typing more characters into the search box only narrows the listing:
   * what is listed for `term + more` is a subsequence of what is listed for
   * `term`.
   */
  lemma {:induction false} LongerSearchNarrows(lower: char -> char, items: seq<MenuItem>, st: MenuState, more: string)
    ensures IsSubsequence(
              FilteredItems(lower, items, st.(searchTerm := st.searchTerm + more)),
              FilteredItems(lower, items, st))
  {
    if |items| > 0 {
      var st' := st.(searchTerm := st.searchTerm + more);
      LongerSearchNarrows(lower, items[1..], st, more);
      var narrow := FilteredItems(lower, items[1..], st');
      var wide := FilteredItems(lower, items[1..], st);
      if Kept(lower, items[0], st') {
        var x := items[0];
        var t := LowerCase(lower, st.searchTerm);
        LowerCaseAppend(lower, st.searchTerm, more);
        if Includes(LowerCase(lower, x.name), t + LowerCase(lower, more)) {
          IncludesParts(LowerCase(lower, x.name), t, LowerCase(lower, more));
        } else {
          IncludesParts(LowerCase(lower, x.description), t, LowerCase(lower, more));
        }
        assert Kept(lower, x, st);
        assert ([x] + narrow)[1..] == narrow;
        assert ([x] + wide)[1..] == wide;
      } else if Kept(lower, items[0], st) {
        SubsequenceDropHead(narrow, [items[0]] + wide);
      }
    }
  }

  /**
   * The search is case-insensitive: with an idempotent case map, searching
   * for a term or for its lower-cased form lists the same dishes.
   */
  lemma {:induction false} SearchIgnoresCase(lower: char -> char, items: seq<MenuItem>, st: MenuState)
    requires forall c :: lower(lower(c)) == lower(c)
    ensures FilteredItems(lower, items, st.(searchTerm := LowerCase(lower, st.searchTerm)))
            == FilteredItems(lower, items, st)
  {
    if |items| > 0 {
      LowerCaseIdempotent(lower, st.searchTerm);
      SearchIgnoresCase(lower, items[1..], st);
    }
  }

  /** The four fields of a dish that `handleAddToCart` forwards to `addItem`. */
  function Forwarded(item: MenuItem): CartProduct {
    CartProduct(item.id, item.name, item.price, item.image)
  }

  const AddedTitle: string := "Agregado al carrito"

  /** `handleAddToCart`: one `addItem` with the dish's four fields, then one plain toast. */
  function AddToCart(item: MenuItem): (r: seq<Effect>)
    ensures |StoreCalls(r)| == 1 && StoreCalls(r)[0].Add?
    ensures Added(r) == [CartProduct(item.id, item.name, item.price, item.image)]
    ensures forall i :: 0 <= i < |r| && r[i].Toast? ==> r[i].variant == Default
    ensures |r| == 2 && r[0].Add? && r[1].Toast?
  {
    [Add(Forwarded(item)), Toast(Default, AddedTitle)]
  }

  /**
   * What reaches the store is exactly the dish's id, name, price and image:
   * two dishes produce the same effects iff they agree on those four fields.
   */
  lemma AddToCartForwardsExactly(a: MenuItem, b: MenuItem)
    ensures AddToCart(a) == AddToCart(b)
            <==> a.id == b.id && a.name == b.name && a.price == b.price && a.image == b.image
  {
    if AddToCart(a) == AddToCart(b) {
      assert AddToCart(a)[0] == AddToCart(b)[0];
    }
  }

  /** A run of "Agregar al Carrito" clicks, one per dish in `clicked`. */
  function AddClicks(clicked: seq<MenuItem>): (r: seq<Effect>)
    ensures |r| == 2 * |clicked|
  {
    if |clicked| == 0 then [] else AddToCart(clicked[0]) + AddClicks(clicked[1..])
  }

  /** Each click adds its dish once, in click order, and the store sees nothing else. */
  lemma {:induction false} AddClicksAddOncePerClick(clicked: seq<MenuItem>)
    ensures |Added(AddClicks(clicked))| == |clicked|
    ensures forall i :: 0 <= i < |clicked| ==> Added(AddClicks(clicked))[i] == Forwarded(clicked[i])
    ensures |StoreCalls(AddClicks(clicked))| == |clicked|
  {
    if |clicked| > 0 {
      AddClicksAddOncePerClick(clicked[1..]);
      AddedAppend(AddToCart(clicked[0]), AddClicks(clicked[1..]));
      StoreCallsAppend(AddToCart(clicked[0]), AddClicks(clicked[1..]));
    }
  }
}

=== FILE: parse_int.dfy ===
/**
 * JavaScript's global `parseInt(string)` with no radix argument, as the
 * ECMAScript language specification defines it (ECMAScript 2024, section
 * 19.2.5): skip leading white space and line terminators, read an optional
 * sign, switch to radix 16 after a "0x"/"0X" prefix, then read the longest
 * run of digits of the radix; no digits gives NaN.
 *
 * Results are unbounded integers: the rounding JavaScript applies to values
 * beyond 2^53 is not modelled, and -0 is folded into 0.
 */
module Numbers {

  /** The value `parseInt` returns: NaN, or an integral number. */
  datatype Parsed = NaN | Num(value: int)

  /** ECMAScript WhiteSpace and LineTerminator code points. */
  predicate IsWhiteSpace(c: char) {
    || c == '\U{0009}' || c == '\U{000A}' || c == '\U{000B}' || c == '\U{000C}' || c == '\U{000D}'
    || c == '\U{0020}' || c == '\U{00A0}' || c == '\U{1680}'
    || ('\U{2000}' <= c <= '\U{200A}')
    || c == '\U{2028}' || c == '\U{2029}' || c == '\U{202F}' || c == '\U{205F}'
    || c == '\U{3000}' || c == '\U{FEFF}'
  }

  predicate IsDecimalDigit(c: char) {
    '0' <= c <= '9'
  }

  /** A digit of radix 16 when `hex`, of radix 10 otherwise. */
  predicate IsDigit(c: char, hex: bool) {
    IsDecimalDigit(c) || (hex && (('a' <= c <= 'f') || ('A' <= c <= 'F')))
  }

  function DigitValue(c: char, hex: bool): (v: nat)
    requires IsDigit(c, hex)
    ensures v < (if hex then 16 else 10)
  {
    if IsDecimalDigit(c) then (c as int) - ('0' as int)
    else if 'a' <= c <= 'f' then (c as int) - ('a' as int) + 10
    else (c as int) - ('A' as int) + 10
  }

  /** The input with its leading white space removed. */
  function TrimStart(s: string): (r: string)
    ensures |r| <= |s| && r == s[|s| - |r|..]
    ensures |r| > 0 ==> !IsWhiteSpace(r[0])
    ensures forall i :: 0 <= i < |s| - |r| ==> IsWhiteSpace(s[i])
  {
    if |s| > 0 && IsWhiteSpace(s[0]) then TrimStart(s[1..]) else s
  }

  /** The longest prefix of `s` made of digits of the radix. */
  function LeadingDigits(s: string, hex: bool): (r: string)
    ensures |r| <= |s| && r == s[..|r|]
    ensures forall i :: 0 <= i < |r| ==> IsDigit(r[i], hex)
    ensures |r| < |s| ==> !IsDigit(s[|r|], hex)
  {
    if |s| > 0 && IsDigit(s[0], hex) then [s[0]] + LeadingDigits(s[1..], hex) else []
  }

  /** The number a string of digits denotes, most significant digit first. */
  function DigitsValue(digits: string, hex: bool): nat
    requires forall i :: 0 <= i < |digits| ==> IsDigit(digits[i], hex)
  {
    if |digits| == 0 then 0
    else
      DigitsValue(digits[..|digits| - 1], hex) * (if hex then 16 else 10)
      + DigitValue(digits[|digits| - 1], hex)
  }

  /** What follows the sign: an optional "0x"/"0X" prefix, then the leading digits of the radix. */
  function Magnitude(u: string): (r: Parsed)
    ensures r.Num? ==> r.value >= 0
    ensures |u| > 0 && IsDecimalDigit(u[0]) && (|u| == 1 || IsDecimalDigit(u[1])) ==> r.Num?
    ensures (|u| == 0 || !IsDecimalDigit(u[0])) ==> r == NaN
  {
    var hex := |u| >= 2 && u[0] == '0' && (u[1] == 'x' || u[1] == 'X');
    var digits := LeadingDigits(if hex then u[2..] else u, hex);
    if |digits| == 0 then NaN else Num(DigitsValue(digits, hex))
  }

  /** `parseInt(s)`. */
  function ParseInt(s: string): (r: Parsed)
    ensures |s| == 0 ==> r == NaN
    ensures (|s| > 0 && IsDecimalDigit(s[0]) && (|s| == 1 || IsDecimalDigit(s[1])))
              ==> r.Num? && r.value >= 0
    ensures (|s| > 0 && !IsWhiteSpace(s[0]) && !IsDecimalDigit(s[0]) && s[0] != '+' && s[0] != '-')
              ==> r == NaN
  {
    ParseSigned(TrimStart(s))
  }

  /** What `parseInt` does once the white space is gone: an optional sign, then the magnitude. */
  function ParseSigned(t: string): (r: Parsed)
    ensures |t| == 0 ==> r == NaN
    ensures (|t| > 0 && IsDecimalDigit(t[0]) && (|t| == 1 || IsDecimalDigit(t[1])))
              ==> r.Num? && r.value >= 0
    ensures (|t| > 0 && !IsDecimalDigit(t[0]) && t[0] != '+' && t[0] != '-') ==> r == NaN
  {
    if |t| > 0 && t[0] == '-' then
      match Magnitude(t[1..])
      case NaN => NaN
      case Num(m) => Num(-m)
    else if |t| > 0 && t[0] == '+' then Magnitude(t[1..])
    else Magnitude(t)
  }

  /** Input that does not start with white space is not trimmed. */
  lemma TrimStartKeeps(s: string)
    requires |s| > 0 && !IsWhiteSpace(s[0])
    ensures TrimStart(s) == s
  {
  }

  /** The character for a decimal digit. */
  function DigitChar(d: nat): (c: char)
    requires d < 10
    ensures IsDecimalDigit(c) && DigitValue(c, false) == d
  {
    (('0' as int) + d) as char
  }

  /** The decimal rendering of a natural number, without leading zeros. */
  function NatToString(n: nat): (s: string)
    ensures |s| > 0
    ensures forall i :: 0 <= i < |s| ==> IsDecimalDigit(s[i])
    ensures |s| == 1 <==> n < 10
  {
    if n < 10 then [DigitChar(n)] else NatToString(n / 10) + [DigitChar(n % 10)]
  }

  /** The decimal rendering of an integer, with a "-" for negatives. */
  function IntToString(n: int): (s: string)
    ensures |s| > 0
  {
    if n < 0 then "-" + NatToString(-n) else NatToString(n)
  }

  /** Reading back the digits of a rendered natural number gives that number. */
  lemma {:induction false} NatToStringValue(n: nat)
    ensures DigitsValue(NatToString(n), false) == n
  {
    if n >= 10 {
      var s := NatToString(n);
      assert s[..|s| - 1] == NatToString(n / 10);
      NatToStringValue(n / 10);
    }
  }

  /** When a run of digits is followed by a non-digit (or nothing), it is exactly the leading digits. */
  lemma {:induction false} LeadingDigitsOfDigits(d: string, rest: string, hex: bool)
    requires forall i :: 0 <= i < |d| ==> IsDigit(d[i], hex)
    requires |rest| > 0 ==> !IsDigit(rest[0], hex)
    ensures LeadingDigits(d + rest, hex) == d
  {
    if |d| > 0 {
      assert (d + rest)[1..] == d[1..] + rest;
      LeadingDigitsOfDigits(d[1..], rest, hex);
    } else {
      assert d + rest == rest;
    }
  }

  /** The part after the sign reads back a rendered natural number. */
  lemma MagnitudeReadsRendered(m: nat, rest: string)
    requires |rest| > 0 ==> !IsDecimalDigit(rest[0])
    requires m == 0 && |rest| > 0 ==> rest[0] != 'x' && rest[0] != 'X'
    ensures Magnitude(NatToString(m) + rest) == Num(m)
  {
    var d := NatToString(m);
    var u := d + rest;
    // A hex prefix needs "0" then "x": with two or more digits the second
    // character is a digit, and a single "0" digit is m == 0.
    if |d| == 1 {
      assert u[0] == d[0];
      assert d[0] == '0' ==> m == 0;
    } else {
      assert u[1] == d[1];
    }
    assert !(|u| >= 2 && u[0] == '0' && (u[1] == 'x' || u[1] == 'X'));
    LeadingDigitsOfDigits(d, rest, false);
    NatToStringValue(m);
  }

  /** Input starting with a digit is read as a magnitude with no sign. */
  lemma ParseIntUnsigned(u: string)
    requires |u| > 0 && IsDecimalDigit(u[0])
    ensures ParseInt(u) == Magnitude(u)
  {
    TrimStartKeeps(u);
  }

  /** A "-" directly before a digit negates the magnitude that follows. */
  lemma ParseIntNegative(u: string, m: int)
    requires |u| > 0 && IsDecimalDigit(u[0])
    requires Magnitude(u) == Num(m)
    ensures ParseInt("-" + u) == Num(-m)
  {
    var s := "-" + u;
    TrimStartKeeps(s);
    assert s[1..] == u;
    assert ParseSigned(s) == Num(-m);
  }

  /**
   * `parseInt` reads back a rendered integer, and stops at whatever
   * non-digit follows it: "2.5" and "1e3" read as 2 and 1.  A lone "0"
   * followed by "x" or "X" is a hex prefix instead, so that case is excluded.
   */
  lemma ParseIntReadsRendered(n: int, rest: string)
    requires |rest| > 0 ==> !IsDecimalDigit(rest[0])
    requires n == 0 && |rest| > 0 ==> rest[0] != 'x' && rest[0] != 'X'
    ensures ParseInt(IntToString(n) + rest) == Num(n)
  {
    if n < 0 {
      ReadsRenderedNegative(n, rest);
    } else {
      ReadsRenderedNonNegative(n, rest);
    }
  }

  lemma ReadsRenderedNegative(n: int, rest: string)
    requires n < 0
    requires |rest| > 0 ==> !IsDecimalDigit(rest[0])
    ensures ParseInt(IntToString(n) + rest) == Num(n)
  {
    var d := NatToString(-n);
    var u := d + rest;
    assert IntToString(n) + rest == "-" + u by {
      assert IntToString(n) == "-" + d;
    }
    assert IsDecimalDigit(u[0]) by {
      assert u[0] == d[0];
    }
    MagnitudeReadsRendered(-n, rest);
    ParseIntNegative(u, -n);
  }

  lemma ReadsRenderedNonNegative(m: nat, rest: string)
    requires |rest| > 0 ==> !IsDecimalDigit(rest[0])
    requires m == 0 && |rest| > 0 ==> rest[0] != 'x' && rest[0] != 'X'
    ensures ParseInt(IntToString(m) + rest) == Num(m)
  {
    var u := NatToString(m) + rest;
    MagnitudeReadsRendered(m, rest);
    assert IntToString(m) + rest == u;
    ParseIntUnsigned(u);
  }

  /** Every rendered integer reads back as itself. */
  lemma ParseIntRoundTrip(n: int)
    ensures ParseInt(IntToString(n)) == Num(n)
  {
    ParseIntReadsRendered(n, "");
    assert IntToString(n) + "" == IntToString(n);
  }

  /** Leading white space never changes the result. */
  lemma ParseIntSkipsWhiteSpace(c: char, s: string)
    requires IsWhiteSpace(c)
    ensures ParseInt([c] + s) == ParseInt(s)
  {
    assert ([c] + s)[1..] == s;
    assert TrimStart([c] + s) == TrimStart(s);
    assert ParseInt([c] + s) == ParseSigned(TrimStart(s));
  }

  /**
   * The sign is read for any input that follows it: "+" leaves the magnitude
   * as it is, "-" negates it, and NaN stays NaN either way.
   */
  lemma ParseIntSigns(u: string)
    ensures ParseInt("+" + u) == Magnitude(u)
    ensures ParseInt("-" + u) == match Magnitude(u) case NaN => NaN case Num(m) => Num(-m)
  {
    TrimStartKeeps("+" + u);
    assert ("+" + u)[1..] == u;
    TrimStartKeeps("-" + u);
    assert ("-" + u)[1..] == u;
  }

  /**
   * A run of decimal digits followed by a non-digit is read in radix 10,
   * leading zeros included: "007" reads as 7.  A lone "0" followed by "x"
   * or "X" is a hex prefix instead, so that case is excluded.
   */
  lemma ParseIntDecimal(digits: string, rest: string)
    requires |digits| > 0
    requires forall i :: 0 <= i < |digits| ==> IsDecimalDigit(digits[i])
    requires |rest| > 0 ==> !IsDecimalDigit(rest[0])
    requires digits == "0" && |rest| > 0 ==> rest[0] != 'x' && rest[0] != 'X'
    ensures ParseInt(digits + rest) == Num(DigitsValue(digits, false))
  {
    var u := digits + rest;
    assert IsDecimalDigit(u[0]) by {
      assert u[0] == digits[0];
    }
    MagnitudeDecimal(u, digits, rest);
    ParseIntUnsigned(u);
  }

  /** Without a hex prefix, the leading decimal digits are read in radix 10. */
  lemma MagnitudeDecimal(u: string, digits: string, rest: string)
    requires u == digits + rest && |digits| > 0
    requires forall i :: 0 <= i < |digits| ==> IsDecimalDigit(digits[i])
    requires |rest| > 0 ==> !IsDecimalDigit(rest[0])
    requires digits == "0" && |rest| > 0 ==> rest[0] != 'x' && rest[0] != 'X'
    ensures Magnitude(u) == Num(DigitsValue(digits, false))
  {
    assert !(|u| >= 2 && u[0] == '0' && (u[1] == 'x' || u[1] == 'X')) by {
      if |digits| == 1 {
        assert digits[0] == '0' ==> digits == "0";
      } else {
        assert u[1] == digits[1];
      }
    }
    LeadingDigitsOfDigits(digits, rest, false);
  }

  /** After "0x" the digits are read in radix 16. */
  lemma MagnitudeHex(u: string, digits: string, rest: string)
    requires |u| >= 2 && u[0] == '0' && (u[1] == 'x' || u[1] == 'X')
    requires u[2..] == digits + rest
    requires forall i :: 0 <= i < |digits| ==> IsDigit(digits[i], true)
    requires |rest| > 0 ==> !IsDigit(rest[0], true)
    ensures Magnitude(u) == if |digits| == 0 then NaN else Num(DigitsValue(digits, true))
  {
    LeadingDigitsOfDigits(digits, rest, true);
  }

  /** `parseInt` of "0x" (or "0X") followed by hex digits and then a non-digit. */
  lemma ParseIntHex(x: char, digits: string, rest: string)
    requires x == 'x' || x == 'X'
    requires forall i :: 0 <= i < |digits| ==> IsDigit(digits[i], true)
    requires |rest| > 0 ==> !IsDigit(rest[0], true)
    ensures ParseInt(['0', x] + digits + rest)
            == if |digits| == 0 then NaN else Num(DigitsValue(digits, true))
  {
    var s := ['0', x] + digits + rest;
    assert s[2..] == digits + rest;
    MagnitudeHex(s, digits, rest);
    ParseIntUnsigned(s);
  }
}

=== FILE: payment.dfy ===
/**
 * The payment screen: its state (payment method, split-bill flag, number of
 * people), the split-bill toggle, the people-count input, the amount shown
 * and charged, and the "Pagar" button.
 */
module PaymentScreen {
  import opened Effects
  import opened Numbers
  import CartScreen

  datatype PaymentState = PaymentState(paymentMethod: string, splitBill: bool, numberOfPeople: int)

  /** The screen's state when it is first shown. */
  const InitialState: PaymentState := PaymentState("card", false, 1)

  const PaymentErrorTitle: string := "Error"
  const PaymentDoneTitle: string := "🎉 ¡Pago exitoso!"

  /**
   * The amount shown on the "Pagar" button and in the success notice.  The
   * split case is JavaScript floating-point division; it is kept symbolic
   * (the total and the divisor) and never evaluated.
   */
  datatype Amount = Whole(total: int) | PerPerson(total: int, people: int)

  /** `splitAmount`. */
  function SplitAmount(total: int, st: PaymentState): (r: Amount)
    ensures r.total == total
    ensures r.Whole? <==> !st.splitBill
  {
    if st.splitBill then PerPerson(total, st.numberOfPeople) else Whole(total)
  }

  /**
   * On arrival the amount is the whole total, and the first toggle switches
   * splitting on for two people.
   */
  lemma InitialStateAmounts(total: int)
    ensures SplitAmount(total, InitialState) == Whole(total)
    ensures SplitToggle(InitialState) == PaymentState("card", true, 2)
    ensures SplitAmount(total, SplitToggle(InitialState)) == PerPerson(total, 2)
  {
  }

  /** With split billing off, the amount is the cart total, whatever the people count. */
  lemma NonSplitAmountIsTotal(total: int, st: PaymentState, people: int)
    requires !st.splitBill
    ensures SplitAmount(total, st) == SplitAmount(total, st.(numberOfPeople := people)) == Whole(total)
  {
  }

  /** `handleSplitToggle`: flip the flag; when turning it on, start from two people. */
  function SplitToggle(st: PaymentState): (r: PaymentState)
    ensures r.splitBill == !st.splitBill
    ensures r.paymentMethod == st.paymentMethod
    ensures r.splitBill ==> r.numberOfPeople == 2
    ensures !r.splitBill ==> r.numberOfPeople == st.numberOfPeople
  {
    var people := if !st.splitBill then 2 else st.numberOfPeople;
    st.(splitBill := !st.splitBill, numberOfPeople := people)
  }

  /**
   * Toggling twice restores the flag but not the people count: it always
   * ends at two, so the initial count of one is not restored.
   */
  lemma ToggleTwice(st: PaymentState)
    ensures SplitToggle(SplitToggle(st)).splitBill == st.splitBill
    ensures SplitToggle(SplitToggle(st)).numberOfPeople == 2
    ensures SplitToggle(SplitToggle(st)).paymentMethod == st.paymentMethod
  {
  }

  /** Whatever the toggling, the amount with split billing off is still the total. */
  lemma ToggledOffAmountIsTotal(total: int, st: PaymentState)
    requires st.splitBill
    ensures SplitAmount(total, SplitToggle(st)) == Whole(total)
  {
  }

  /**
   * The people-count input: `parseInt(value) || 2`.  NaN and 0 are the
   * falsy results and fall back to 2; anything else is stored as parsed.
   * The field's min/max are only hints, so negatives and large counts pass.
   */
  function PeopleInput(value: string): (r: int)
    ensures r != 0
    ensures ParseInt(value).NaN? ==> r == 2
    ensures ParseInt(value) == Num(0) ==> r == 2
    ensures ParseInt(value).Num? && ParseInt(value).value != 0 ==> r == ParseInt(value).value
  {
    match ParseInt(value)
    case NaN => 2
    case Num(n) => if n == 0 then 2 else n
  }

  /** The state after typing `value` into the people-count field. */
  function PeopleChanged(st: PaymentState, value: string): (r: PaymentState)
    ensures r.numberOfPeople == PeopleInput(value) && r.numberOfPeople != 0
    ensures r.splitBill == st.splitBill && r.paymentMethod == st.paymentMethod
  {
    st.(numberOfPeople := PeopleInput(value))
  }

  /** Typing a rendered integer stores that integer, except that 0 becomes 2. */
  lemma PeopleInputReadsRendered(n: int)
    ensures PeopleInput(IntToString(n)) == if n == 0 then 2 else n
  {
    ParseIntRoundTrip(n);
  }

  /** An empty field, or one starting with a character no number can start with, gives two people. */
  lemma PeopleInputNonNumeric(value: string)
    requires |value| == 0
             || (!IsWhiteSpace(value[0]) && !IsDecimalDigit(value[0]) && value[0] != '+' && value[0] != '-')
    ensures PeopleInput(value) == 2
  {
  }

  /** A fractional entry is cut at the point: "2.5" stores 2, "0.5" falls back to two. */
  lemma PeopleInputFraction(n: int, fraction: string)
    ensures PeopleInput(IntToString(n) + "." + fraction) == if n == 0 then 2 else n
  {
    assert IntToString(n) + "." + fraction == IntToString(n) + ("." + fraction);
    ParseIntReadsRendered(n, "." + fraction);
  }

  /** Leading white space is skipped: " 5" stores what "5" stores. */
  lemma PeopleInputLeadingSpace(c: char, value: string)
    requires IsWhiteSpace(c)
    ensures PeopleInput([c] + value) == PeopleInput(value)
  {
    ParseIntSkipsWhiteSpace(c, value);
  }

  /** Decimal digits are read in radix 10, leading zeros included: "007" stores 7, "00" falls back to two. */
  lemma PeopleInputDecimal(digits: string)
    requires |digits| > 0
    requires forall i :: 0 <= i < |digits| ==> IsDecimalDigit(digits[i])
    ensures PeopleInput(digits) == if DigitsValue(digits, false) == 0 then 2 else DigitsValue(digits, false)
  {
    ParseIntDecimal(digits, "");
    assert digits + "" == digits;
  }

  /** A "0x" prefix reads hexadecimal ("0x1A" stores 26); a bare "0x" has no digits and gives two. */
  lemma PeopleInputHex(x: char, digits: string)
    requires x == 'x' || x == 'X'
    requires forall i :: 0 <= i < |digits| ==> IsDigit(digits[i], true)
    ensures |digits| == 0 ==> PeopleInput(['0', x] + digits) == 2
    ensures DigitsValue(digits, true) > 0 ==> PeopleInput(['0', x] + digits) == DigitsValue(digits, true)
    ensures |digits| > 0 && DigitsValue(digits, true) == 0 ==> PeopleInput(['0', x] + digits) == 2
  {
    ParseIntHex(x, digits, "");
    assert ['0', x] + digits + "" == ['0', x] + digits;
  }

  /**
   * `handlePayment`: refuse an empty cart; otherwise announce the payment,
   * clear the cart and go to the orders screen.
   */
  function Pay(items: seq<CartScreen.CartLine>): (r: seq<Effect>)
    ensures Clear in r <==> |items| > 0
    ensures Navigate(OrdersPath) in r <==> |items| > 0
    ensures OnlyToasts(r) <==> |items| == 0
    ensures |items| == 0 ==> r == [Toast(Destructive, PaymentErrorTitle)]
    ensures |items| > 0 ==> r == [Toast(Default, PaymentDoneTitle), Clear, Navigate(OrdersPath)]
    ensures CheckoutShaped(r)
  {
    if |items| == 0 then
      [Toast(Destructive, PaymentErrorTitle)]
    else
      [Toast(Default, PaymentDoneTitle), Clear, Navigate(OrdersPath)]
  }

  /**
   * Paying and placing an order with a table number make the same store and
   * routing calls; they differ only in the notice.
   */
  lemma PayMatchesPlaceOrder(items: seq<CartScreen.CartLine>, tableNumber: string)
    requires tableNumber != ""
    ensures StoreCalls(Pay(items)) == StoreCalls(CartScreen.PlaceOrder(items, tableNumber))
    ensures Pay(items)[1..] == CartScreen.PlaceOrder(items, tableNumber)[1..]
  {
  }
}

=== FILE: session.dfy ===
/**
 * The three screens' handlers driven together by a run of user gestures.
 * Whatever the order of gestures, the effects they issue keep two rules
 * about what the screens ask of the store: it is never asked to set a
 * quantity below one, and clearing the cart only ever happens after a
 * success notice and just before moving to the orders screen.
 */
module Session {
  import opened Effects
  import Menu
  import CartScreen
  import PaymentScreen

  /** A gesture on one of the screens, carrying what its handler reads. */
  datatype Gesture =
    | AddToCartPressed(item: Menu.MenuItem)
    | MinusPressed(line: CartScreen.CartLine)
    | PlusPressed(line: CartScreen.CartLine)
    | TrashPressed(line: CartScreen.CartLine)
    | PlaceOrderPressed(items: seq<CartScreen.CartLine>, tableNumber: string)
    | PayPressed(items: seq<CartScreen.CartLine>)

  /** The handler each gesture reaches. */
  function Dispatch(g: Gesture): seq<Effect> {
    match g
    case AddToCartPressed(item) => Menu.AddToCart(item)
    case MinusPressed(line) => CartScreen.MinusClicked(line)
    case PlusPressed(line) => CartScreen.PlusClicked(line)
    case TrashPressed(line) => CartScreen.TrashClicked(line)
    case PlaceOrderPressed(items, tableNumber) => CartScreen.PlaceOrder(items, tableNumber)
    case PayPressed(items) => PaymentScreen.Pay(items)
  }

  /** The effects of a run of gestures, in order. */
  function Run(gs: seq<Gesture>): seq<Effect> {
    if |gs| == 0 then [] else Dispatch(gs[0]) + Run(gs[1..])
  }

  /** Each single handler keeps both rules. */
  lemma DispatchKeepsRules(g: Gesture)
    ensures PositiveUpdates(Dispatch(g))
    ensures CheckoutShaped(Dispatch(g))
  {
    match g
    case AddToCartPressed(item) =>
      assert Dispatch(g) == [Add(Menu.Forwarded(item)), Toast(Default, Menu.AddedTitle)];
    case MinusPressed(line) =>
      assert Dispatch(g) == CartScreen.QuantityChange(line.id, line.quantity - 1);
    case PlusPressed(line) =>
      assert Dispatch(g) == CartScreen.QuantityChange(line.id, line.quantity + 1);
    case TrashPressed(line) =>
      assert Dispatch(g) == [Remove(line.id)];
    case PlaceOrderPressed(items, tableNumber) =>
    case PayPressed(items) =>
  }

  lemma PositiveUpdatesAppend(a: seq<Effect>, b: seq<Effect>)
    requires PositiveUpdates(a) && PositiveUpdates(b)
    ensures PositiveUpdates(a + b)
  {
    forall i | 0 <= i < |a + b| && (a + b)[i].Update?
      ensures (a + b)[i].quantity >= 1
    {
      if i >= |a| {
        assert (a + b)[i] == b[i - |a|];
      }
    }
  }

  /** Any run of gestures keeps both rules. */
  lemma {:induction false} RunKeepsRules(gs: seq<Gesture>)
    ensures PositiveUpdates(Run(gs))
    ensures CheckoutShaped(Run(gs))
  {
    if |gs| > 0 {
      DispatchKeepsRules(gs[0]);
      RunKeepsRules(gs[1..]);
      PositiveUpdatesAppend(Dispatch(gs[0]), Run(gs[1..]));
      CheckoutShapedAppend(Dispatch(gs[0]), Run(gs[1..]));
    }
  }

  /** A gesture other than placing an order or paying neither clears the cart nor navigates. */
  lemma NonCheckoutGesture(g: Gesture)
    requires !g.PlaceOrderPressed? && !g.PayPressed?
    ensures forall i :: 0 <= i < |Dispatch(g)| ==> !Dispatch(g)[i].Clear? && !Dispatch(g)[i].Navigate?
  {
  }

  /** A run with no checkout gesture never clears the cart or leaves the screen. */
  lemma {:induction false} NoCheckoutNoClear(gs: seq<Gesture>)
    requires forall i :: 0 <= i < |gs| ==> !gs[i].PlaceOrderPressed? && !gs[i].PayPressed?
    ensures forall i :: 0 <= i < |Run(gs)| ==> !Run(gs)[i].Clear? && !Run(gs)[i].Navigate?
  {
    if |gs| > 0 {
      NoCheckoutNoClear(gs[1..]);
      NonCheckoutGesture(gs[0]);
      var head, tail := Dispatch(gs[0]), Run(gs[1..]);
      var all: seq<Effect> := head + tail;
      assert Run(gs) == all;
      forall i | 0 <= i < |all|
        ensures !all[i].Clear? && !all[i].Navigate?
      {
        if i >= |head| {
          assert all[i] == tail[i - |head|];
        }
      }
    }
  }
}

=== FILE: text.dfy ===
/**
 * The two string operations the menu search relies on: JavaScript's
 * `String.prototype.includes` (substring existence) and `toLowerCase`.
 *
 * Lower-casing is kept abstract: it is a per-character map `lower` supplied
 * by the caller, so nothing here depends on Unicode case tables.
 */
module Text {

  /** `term` occurs in `text` starting at index `i`. */
  predicate OccursAt(text: string, term: string, i: int) {
    0 <= i && i + |term| <= |text| && text[i..i + |term|] == term
  }

  /** `text.includes(term)`: `term` occurs somewhere in `text`. */
  predicate Includes(text: string, term: string) {
    exists i | 0 <= i <= |text| - |term| :: OccursAt(text, term, i)
  }

  /** `s.toLowerCase()`, with the case map given character by character. */
  function LowerCase(lower: char -> char, s: string): (r: string)
    ensures |r| == |s|
    ensures forall i :: 0 <= i < |s| ==> r[i] == lower(s[i])
  {
    seq(|s|, i requires 0 <= i < |s| => lower(s[i]))
  }

  /**
   * The scan `includes` performs: try every start position in turn and stop
   * at the first one where `term` matches.
   */
  method IncludesScan(text: string, term: string) returns (found: bool)
    ensures found <==> Includes(text, term)
  {
    if |term| > |text| {
      return false;
    }
    var i := 0;
    while i <= |text| - |term|
      invariant 0 <= i <= |text| - |term| + 1
      invariant forall j :: 0 <= j < i ==> !OccursAt(text, term, j)
    {
      if text[i..i + |term|] == term {
        assert OccursAt(text, term, i);
        return true;
      }
      i := i + 1;
    }
    return false;
  }

  /** The empty string occurs in every string. */
  lemma IncludesEmpty(text: string)
    ensures Includes(text, "")
  {
    assert OccursAt(text, "", 0);
  }

  /**
   * A text that contains `a + b` contains `a` and contains `b`: lengthening a
   * search term can only lose matches.
   */
  lemma IncludesParts(text: string, a: string, b: string)
    requires Includes(text, a + b)
    ensures Includes(text, a) && Includes(text, b)
  {
    var i :| 0 <= i <= |text| - |a + b| && OccursAt(text, a + b, i);
    assert text[i..i + |a|] == (a + b)[..|a|] == a;
    assert OccursAt(text, a, i);
    assert text[i + |a|..i + |a| + |b|] == (a + b)[|a|..] == b;
    assert OccursAt(text, b, i + |a|);
  }

  /** Lower-casing is applied character by character, so it distributes over `+`. */
  lemma LowerCaseAppend(lower: char -> char, a: string, b: string)
    ensures LowerCase(lower, a + b) == LowerCase(lower, a) + LowerCase(lower, b)
  {
  }

  /**
   * An exact-case hit is also a case-insensitive hit: lower-casing both sides
   * keeps every occurrence where it was.
   */
  lemma IncludesLowerCase(lower: char -> char, text: string, term: string)
    requires Includes(text, term)
    ensures Includes(LowerCase(lower, text), LowerCase(lower, term))
  {
    var i :| 0 <= i <= |text| - |term| && OccursAt(text, term, i);
    var lt, lm := LowerCase(lower, text), LowerCase(lower, term);
    assert lt[i..i + |lm|] == lm by {
      forall k | 0 <= k < |lm|
        ensures lt[i..i + |lm|][k] == lm[k]
      {
        assert text[i..i + |term|][k] == term[k];
      }
    }
    assert OccursAt(lt, lm, i);
  }

  /** With an idempotent case map, lower-casing twice is lower-casing once. */
  lemma LowerCaseIdempotent(lower: char -> char, s: string)
    requires forall c :: lower(lower(c)) == lower(c)
    ensures LowerCase(lower, LowerCase(lower, s)) == LowerCase(lower, s)
  {
  }
}
